=== FILE: README.md ===
# Funnel step engine, modelled in Dafny

The repository is a gamified marketing quiz. It defines 19 screens (steps
0 to 18) of questions, persuasion copy, a simulated "analysis" and an
offer, and the visitor collects XP on the way through them. Step 17 is
never reached, and step 18 is the rejection exit, entered from the gate
question or from the offer. The only logic in it is
the step engine inside `FunnelController`: a state record (step index,
`UserProfile`, pending option selection, analysis progress, bonus-modal
flags) and the button and timer handlers that move it. This project models
that engine as an immutable state and a pure transition function, together
with the nine-question table it reads.

Files and modules:

- `wrappers.dfy` (`Wrappers`): the `Option` type used for the source's
  nullable fields.
- `questions.dfy` (`Questions`): the question table of `constants.ts`. Each
  entry is one function with its own contract. `Shaped` is the shape the
  engine relies on: nine well-formed entries numbered 1 to 9, a two-option
  yes/no question, and a four-option gate question whose option 3 is
  "SOU PEGADOR". `TableShaped` proves the literal table has that shape.
- `profile.dfy` (`Profile`): `UserProfile`, the level rule, `addXP` and
  `updateFinalXP`.
- `funnel.dfy` (`Funnel`): the engine's state and events, one function per
  handler, the modal effect, the step-to-question binding, the mission
  number, and the transition function `Next` with its runs `Run`.
- `invariant.dfy` (`FunnelInvariant`): the invariant `Inv` of every
  reachable state. The score and the number of answers are fixed by the
  step, the analysis phase matches the step, the profile label, elite flag
  and classification match the phase, and the modal flag is set exactly
  when the offer has been reached.
- `preservation.dfy` (`FunnelPreservation`): every offered event keeps
  `Inv`.
- `properties.dfy` (`FunnelProperties`): what each transition does, and
  what holds along every run.
- `session.dfy` (`FunnelSession`): the engine with the repository's own
  table, and how the screens fit that table.

How the source is modelled:

- Timers are atomic events. `SelectionElapsed` is the 400 ms delay after an
  answer or a gate pass, and also the 1000 ms delay after a gate failure.
  `Tick(pick)` is one firing of the 50 ms analysis interval.
  `AnalysisElapsed` is the 1500 ms delay before step 15. While a delay is
  pending, the chosen option stays marked and the option buttons are
  disabled, as in the source.
- `Math.random` is the `pick` carried by `Tick`, an index into the four
  profile labels.
- The modal `useEffect` is applied after every transition. React runs it
  only when the step or the shown flag changes. The two agree because
  every state satisfying the invariant is left alone by the effect, and a
  handler that keeps the step returns such a state again
  (`EffectOnlyOnDependencyChange`; no handler touches the shown flag).
  The modal's overlay catches pointer input but does not make the page
  behind it inert: the offer page's checkout and decline controls stay
  reachable from the keyboard, so the model offers them while the modal
  is open, as well as the modal's own two buttons (`ModalOverOffer`).
- The checkout redirect is a terminal `left` flag. After it, no event is
  offered.
- The engine is stated for any question table with the shape in `Shaped`.
  `SessionInvariant` instantiates it with the repository's table.

## Model

| member | source | states |
|---|---|---|
| Questions.Question1 | constants.ts:5-10 | question 1 has id 1, 2 to 5 options and one response per option |
| Questions.Question2 | constants.ts:11-16 | question 2 has id 2, exactly two options (the yes/no pair) and one response per option |
| Questions.Question3 | constants.ts:17-22 | question 3 has id 3, 2 to 5 options and one response per option |
| Questions.Question4 | constants.ts:23-28 | question 4 has id 4, 2 to 5 options and one response per option |
| Questions.Question5 | constants.ts:29-40 | question 5 has id 5, 2 to 5 options and one response per option |
| Questions.Question6 | constants.ts:41-46 | question 6 has id 6, 2 to 5 options and one response per option |
| Questions.Question7 | constants.ts:47-52 | question 7, the gate question, has id 7, exactly four options, and its option 3 is "SOU PEGADOR" |
| Questions.Question8 | constants.ts:53-58 | question 8 has id 8, 2 to 5 options and one response per option |
| Questions.Question9 | constants.ts:59-64 | question 9 has id 9, 2 to 5 options and one response per option |
| Questions.TableShaped | constants.ts:4-65 | the table has exactly nine entries; entry i has id i+1, 2 to 5 options and as many responses as options; index 1 has two options; index 6 has four, with "SOU PEGADOR" at index 3 |
| Questions.LabelsCoverOptions | components/FunnelController.tsx:46 | in a table of that shape, every option index has a letter among A to E and a response |
| Profile.LevelOf | components/FunnelController.tsx:195-197 | the level is at most 20; it is 20 exactly when the score is at least 1900; below that, level L means a score in [100(L-1), 100L) |
| Profile.Initial | components/FunnelController.tsx:125-131 | a session starts with score 0, level 1, no answers, an empty profile label, not elite, no classification; the level rule holds |
| Profile.AddXp | components/FunnelController.tsx:193-207 | an award raises the score by exactly the points, the level is recomputed from the new score by the level rule for every score and never drops, and nothing else in the profile changes |
| Profile.CompleteProfile | components/FunnelController.tsx:209-218 | completion forces score 1950 and level 20, which agree with the level rule, and sets the classification; answers, label and elite flag are kept |
| Profile.AwardsKeepLevelInvariant | components/FunnelController.tsx:193-204 | any sequence of awards keeps the level rule, raises the score by their sum, never lowers the level, and leaves the answers alone |
| Funnel.Init | components/FunnelController.tsx:123-136 | the session starts at step 0 with the initial profile, no selection, progress 0, the analysis not started, and the modal never shown |
| Funnel.QuestionAt | components/FunnelController.tsx:320-536 | exactly steps 1-4, 6, 7, 9, 11 and 12 show a question; the index is in the table; step 9 and only step 9 shows the gate question |
| Funnel.StepOf | components/FunnelController.tsx:320-536 | every question is shown by exactly one step |
| Funnel.QuestionNumber | components/FunnelController.tsx:281-287 | the mission number is in 1..9; on a question step it is the bound question's index plus 1, and elsewhere it is 1 |
| Funnel.Begin | components/FunnelController.tsx:305-311 | the start button gives 50 points and goes to step 1, answers unchanged |
| Funnel.NextStep | components/FunnelController.tsx:252-256 | the generic continue goes one step on and gives 50 points, answers unchanged |
| Funnel.ClaimBonus | components/FunnelController.tsx:431 | the bonus button gives 500 points and goes to the gate, answers unchanged |
| Funnel.FinishVideo | components/FunnelController.tsx:569 | the video button gives 1000 points and goes to the analysis, answers unchanged |
| Funnel.Complete | components/FunnelController.tsx:617 | the completion button forces 1950 points, level 20 and the classification, and goes to the offer |
| Funnel.HandleAnswer | components/FunnelController.tsx:220-239 | an index outside the table changes nothing; otherwise exactly the chosen option's text is appended, 25 points are added, the choice is marked and the step is not yet changed |
| Funnel.AnswerElapsed | components/FunnelController.tsx:241-249 | the delay clears the selection and moves to the next step when that is below 16, profile unchanged |
| Funnel.ChooseAtGate | components/FunnelController.tsx:468-479 | a gate choice is marked, records no answer, and earns 25 points only for option 3 |
| Funnel.GateElapsed | components/FunnelController.tsx:474-484 | after the delay the selection clears; option 3 leads to step 10, any other option to step 18; profile unchanged |
| Funnel.BeginAnalysis | components/FunnelController.tsx:258-260 | starting the analysis sets progress 0 and starts the interval, step and profile unchanged |
| Funnel.AnalysisTick | components/FunnelController.tsx:260-278 | below 100 a firing adds 2 to the progress; at 100 it stops the interval and sets the drawn label and the elite flag; score, level, answers, classification and step unchanged |
| Funnel.FinishAnalysis | components/FunnelController.tsx:270-273 | the delay after the analysis goes to step 15, profile unchanged |
| Funnel.DeclineOffer | components/FunnelController.tsx:781 | declining the offer goes to step 18 with the profile unchanged |
| Funnel.LeaveForCheckout | components/FunnelController.tsx:763 | checkout leaves the funnel without changing step or profile |
| Funnel.HideModal | components/FunnelController.tsx:829-836 | closing or accepting the modal hides it and keeps the shown flag, step and profile |
| Funnel.Offered | components/FunnelController.tsx:289-836 | what the screen lets the visitor do: nothing after checkout; the modal's buttons only while it is visible, and the page's own controls whether or not it is; options only on question screens and only while no choice is pending (disabled buttons at lines 96 and 468); the analysis start only at progress 0 before the analysis (line 584) |
| Funnel.Apply | components/FunnelController.tsx:305-835 | the handler bound to each control: only checkout leaves; only a continue button, an elapsed delay or the decline link changes the step; only a non-gate option choice changes the answers; no handler touches the shown flag; only the modal's two buttons hide it |
| Funnel.ModalEffect | components/FunnelController.tsx:184-191 | after the effect, the shown flag is set when it was set or the step is 16; the modal is visible iff the step is 16 and it was visible or never shown; nothing else changes |
| FunnelInvariant.XpBeforeValues | components/FunnelController.tsx:305-617 | on the path to the offer the score is 50 at step 1, 150 at step 5, 750 at the gate, and 1875 at steps 14 and 15 |
| FunnelInvariant.AnswerIndexMatches | components/FunnelController.tsx:320-536 | the answer recorded at an answer step is the k-th answer, with k below 8, and belongs to that step's question (the gate question is skipped) |
| FunnelInvariant.InitSatisfiesInv | components/FunnelController.tsx:123-136 | the initial state satisfies the invariant |
| FunnelPreservation.NextKeepsInv | components/FunnelController.tsx:184-836 | every event the current screen offers keeps the invariant |
| FunnelProperties.AnswerThenAdvance | components/FunnelController.tsx:220-249 | at an answer step, a choice appends exactly that option's text, adds 25 points under the level rule and blocks further choices; the delay then clears it and moves to step+1, which is below 16 |
| FunnelProperties.GateDecision | components/FunnelController.tsx:468-485 | at the gate, option 3 leads to step 10 with +25; any other option leads to step 18 with the score unchanged; no answer is recorded, and no second choice is possible while one is pending |
| FunnelProperties.ContinueTransitions | components/FunnelController.tsx:305-617 | steps 0, 5 and 10 give +50 and move one on; 8 gives +500 to 9; 13 gives +1000 to 14; 15 forces 1950, level 20 and the classification and goes to 16, keeping label and elite flag, and opens the modal there if it was never shown; answers never change |
| FunnelProperties.DeclineTransition | components/FunnelController.tsx:781 | declining goes to 18 with the profile unchanged and the modal hidden |
| FunnelProperties.ProgressMonotone | components/FunnelController.tsx:258-279 | the progress never goes down and never exceeds 100; the start action is offered only at progress 0 |
| FunnelProperties.IntervalReachesFull | components/FunnelController.tsx:258-279 | from progress p the interval runs exactly (100-p)/2 increments to reach 100, profile untouched; the next firing sets the drawn label and the elite flag once and stops |
| FunnelProperties.AnalysisLeadsToCompletion | components/FunnelController.tsx:270-273 | once the analysis has finished, its delay goes to step 15 with an elite profile carrying one of the four labels |
| FunnelProperties.ModalEffectIdempotent | components/FunnelController.tsx:184-191 | running the modal effect twice is the same as once, and it only leaves the modal visible on step 16 |
| FunnelProperties.ModalOneShot | components/FunnelController.tsx:184-191 | in one transition the shown flag never resets, the modal is visible only on step 16, and it can only newly open if it was never shown |
| FunnelProperties.ModalOverOffer | components/FunnelController.tsx:759-836 | while the modal is visible on the offer, its close and accept buttons and the page's checkout and decline controls are offered, and nothing else; declining from under it leads to step 18 with the modal hidden |
| FunnelProperties.EffectOnlyOnDependencyChange | components/FunnelController.tsx:184-191 | every invariant state is unchanged by the modal effect, and so is the result of any handler that keeps the step, so applying the effect after every transition matches running it only when its dependencies change |
| FunnelProperties.ProfileOnlyGrows | components/FunnelController.tsx:193-278 | in one transition from an invariant state the score and level do not drop (the forced 1950 included), the elite flag, the label and the classification stay once set, and only the tick that fills the bar assigns the label, to the label it drew |
| FunnelProperties.ProfileNeverRegresses | components/FunnelController.tsx:193-278 | along any run from an invariant state the score and level never drop, and the elite flag, the label and the classification never change once set |
| FunnelProperties.StepNeverBack | components/FunnelController.tsx:252-785 | from an invariant state no event lowers the step, and the rejection screen at step 18 is never left for another screen |
| FunnelProperties.StepsNeverBack | components/FunnelController.tsx:252-785 | along any run from an invariant state the step never goes back, so the completion screen is entered at most once and a session that reached step 18 stays there |
| FunnelProperties.ModalOpensAtMostOnce | components/FunnelController.tsx:184-191 | along any run the modal opens at most once, and never if it has already been shown; the shown flag stays set |
| FunnelProperties.AnswersAppendOnly | components/FunnelController.tsx:226-231 | along any run the old answers stay a prefix of the new ones, with at most one answer added per event |
| FunnelProperties.RunKeepsInv | components/FunnelController.tsx:123-136 | after any run from a state satisfying the invariant, the invariant still holds |
| FunnelProperties.NeverStuck | components/FunnelController.tsx:289-821 | until the visitor leaves for checkout, every state satisfying the invariant offers some event |
| FunnelProperties.ReachableStateFacts | components/FunnelController.tsx:792-802 | no reachable state is on step 17; the level rule holds; step 16 means 1950 points, level 20, classification set and elite; a gate rejection keeps 750 points and six answers; at most eight answers; modal visible only on 16 |
| FunnelSession.QuestionNumberIsId | components/FunnelController.tsx:281-287 | on every question step the mission number equals the id of the question shown |
| FunnelSession.ScreensFitTable | components/FunnelController.tsx:324-455 | step 2's two-column layout shows the two-option question; the gate shows four options with "SOU PEGADOR" as option 3 |
| FunnelSession.SessionInvariant | constants.ts:4-65 | with the repository's own table, every state reachable from the start of a session satisfies the invariant |

## Left out

- Audio and video playback (utils/audio.ts, the `playSound`/`playTrack`
  calls, the autoplay effect, `window.scrollTo`): side effects with no
  bearing on the state.
- Timer durations and React state batching: every delay and interval
  firing is one atomic event.
- Funnel.Offered: does not offer a second press of the analysis start
  button in the first 50 ms. Progress is still 0 then, so the source would
  start a second interval; the model offers the start only before the
  analysis has begun, because a second interval is a timing race.
- The checkout URL and what happens after the redirect: the model only
  marks that the visitor left.
- The "+XP" toast (always shows 50) and its 1000 ms timer: presentation.
- Question prompts and response lines are kept in the table but never read
  by the engine; only their counts matter to it.
- Funnel.HandleAnswer: requires a rendered option index when the question
  exists. In JavaScript an index beyond the options would append
  `undefined`, and no button produces such an index.
- components/BonusModal.tsx, components/ui/*, App.tsx and all markup and
  copy: presentation. The modal's open and close logic lives in
  `FunnelController` and is modelled.

=== FILE: funnel.dfy ===
/** The quiz's step engine (components/FunnelController.tsx): a state
    record, the button and timer handlers of each screen, and `Next`, the
    transition function that dispatches an event to the handler the
    current screen offers.

    Timers are atomic events: `SelectionElapsed` is the 400 ms (answer,
    gate pass) or 1000 ms (gate failure) delay that clears a selection and
    moves on, `Tick` is one firing of the 50 ms analysis interval, and
    `AnalysisElapsed` is the 1500 ms delay after the analysis. The random
    profile label is the `pick` carried by `Tick`. */
module Funnel {
  import opened Wrappers
  import opened Questions
  import opened Profile

  const LastStep: int := 18
  const GateStep: int := 9
  const AnalysisStep: int := 14
  const CompletionStep: int := 15
  const OfferStep: int := 16
  const LegacyRejectStep: int := 17
  const RejectStep: int := 18

  /** Steps whose continue button gives points: the landing screen, the
      two persuasion screens, the bonus reveal, the video and completion. */
  const ContinueSteps: set<int> := {0, 5, 8, 10, 13, 15}
  /** Steps that show the checkout button. */
  const CheckoutSteps: set<int> := {16, 17, 18}

  const AnswerPoints: nat := 25
  const ContinuePoints: nat := 50
  const BonusPoints: nat := 500
  const VideoPoints: nat := 1000

  const ProgressIncrement: nat := 2
  const ProgressFull: nat := 100

  /** Where the analysis of step 14 stands: not started, the interval
      running, the 1500 ms delay before step 15 pending, or finished. */
  datatype Phase = Idle | Scanning | Settling | Done

  /** The component's state: the step index, the profile, the pending
      option selection, the analysis progress, the bonus modal's one-shot
      flag and visibility, and whether the visitor was sent to checkout. */
  datatype State = State(
    step: int,
    profile: UserProfile,
    selected: Option<int>,
    progress: int,
    analysis: Phase,
    modalShown: bool,
    modalVisible: bool,
    left: bool)

  /** What can happen to the component: a button press or a timer firing. */
  datatype Event =
    | Continue              // the single continue button of steps 0, 5, 8, 10, 13, 15
    | Choose(option: int)   // an option button of a question or of the gate
    | SelectionElapsed      // the delay after a choice
    | StartAnalysis         // the start button of step 14
    | Tick(pick: int)       // one interval firing; `pick` is the random label index
    | AnalysisElapsed       // the delay after the analysis
    | Decline               // the reject link of the offer
    | Checkout              // the checkout button of steps 16 to 18
    | CloseModal            // the modal's close button
    | AcceptModal           // the modal's accept button

  /** The state a session starts with. */
  function Init(): (s: State)
    ensures s.step == 0 && s.profile == Profile.Initial() && s.selected.None?
    ensures s.progress == 0 && s.analysis == Idle
    ensures !s.modalShown && !s.modalVisible && !s.left
  {
    State(0, Profile.Initial(), None, 0, Idle, false, false, false)
  }

  // ---------------------------------------------------------------------
  // Question binding and display numbering

  /** The question a step shows: steps 1 to 4 show questions 0 to 3, steps
      6 and 7 questions 4 and 5, step 9 the gate question 6, and steps 11
      and 12 questions 7 and 8. */
  function QuestionAt(step: int): (q: Option<nat>)
    ensures q.Some? <==> step in {1, 2, 3, 4, 6, 7, 9, 11, 12}
    ensures q.Some? ==> q.value < Count
    ensures q == Some(GateQuestion) <==> step == GateStep
  {
    if 1 <= step <= 4 then Some(step - 1)
    else if 6 <= step <= 7 then Some(step - 2)
    else if step == GateStep then Some(GateQuestion)
    else if 11 <= step <= 12 then Some(step - 4)
    else None
  }

  /** The step that shows question `q`; it is the only one. */
  function StepOf(q: nat): (step: int)
    requires q < Count
    ensures QuestionAt(step) == Some(q)
    ensures forall other :: QuestionAt(other) == Some(q) ==> other == step
  {
    if q < 4 then q + 1 else if q < 6 then q + 2 else if q == 6 then GateStep else q + 4
  }

  /** A step whose options are answered through `handleAnswer`. */
  predicate IsAnswerStep(step: int) {
    QuestionAt(step).Some? && step != GateStep
  }

  /** `getQuestionNumber`: the mission number shown in a question header.
      It is the bound question's 1-based number on every question step and
      falls back to 1 elsewhere. */
  function QuestionNumber(step: int): (n: int)
    ensures 1 <= n <= Count
    ensures QuestionAt(step).Some? ==> n == QuestionAt(step).value + 1
    ensures QuestionAt(step).None? ==> n == 1
  {
    if 1 <= step <= 4 then step
    else if 6 <= step <= 7 then step - 1
    else if step == 9 then 7
    else if 11 <= step <= 12 then step - 3
    else 1
  }

  // ---------------------------------------------------------------------
  // Handlers, one per button or timer of the source

  /** Step 0's start button: 50 points and on to the first question. */
  function Begin(s: State): (r: State)
    ensures r.step == 1 && r.profile.xp == s.profile.xp + ContinuePoints
    ensures r.profile.answers == s.profile.answers
  {
    s.(profile := AddXp(s.profile, ContinuePoints), step := 1)
  }

  /** `nextStep`, used by the persuasion screens 5 and 10: one step on and
      50 points. */
  function NextStep(s: State): (r: State)
    ensures r.step == s.step + 1 && r.profile.xp == s.profile.xp + ContinuePoints
    ensures r.profile.answers == s.profile.answers
  {
    s.(step := s.step + 1, profile := AddXp(s.profile, ContinuePoints))
  }

  /** Step 8's bonus button: 500 points and on to the gate. */
  function ClaimBonus(s: State): (r: State)
    ensures r.step == GateStep && r.profile.xp == s.profile.xp + BonusPoints
    ensures r.profile.answers == s.profile.answers
  {
    s.(profile := AddXp(s.profile, BonusPoints), step := 9)
  }

  /** Step 13's button under the video: 1000 points and on to the analysis. */
  function FinishVideo(s: State): (r: State)
    ensures r.step == AnalysisStep && r.profile.xp == s.profile.xp + VideoPoints
    ensures r.profile.answers == s.profile.answers
  {
    s.(profile := AddXp(s.profile, VideoPoints), step := 14)
  }

  /** Step 15's button: the forced completion award and on to the offer. */
  function Complete(s: State): (r: State)
    ensures r.step == OfferStep && r.profile.xp == FinalXp && r.profile.level == MaxLevel
    ensures r.profile.classification == Some(FinalClassification)
    ensures r.profile.answers == s.profile.answers
  {
    s.(profile := CompleteProfile(s.profile), step := 16)
  }

  /** `handleAnswer`: an index outside the table changes nothing; otherwise
      the choice is marked, the option's text is appended to the answers
      and 25 points are awarded. The step moves later, in `AnswerElapsed`.
      Every caller passes the index of a rendered option button. */
  function HandleAnswer(qs: seq<Question>, s: State, q: int, a: int): (r: State)
    requires 0 <= q < |qs| ==> 0 <= a < |qs[q].options|
    ensures !(0 <= q < |qs|) ==> r == s
    ensures 0 <= q < |qs| ==> r.profile.answers == s.profile.answers + [qs[q].options[a]]
    ensures 0 <= q < |qs| ==> r.profile.xp == s.profile.xp + AnswerPoints && r.selected == Some(a)
    ensures r.step == s.step
  {
    if !(0 <= q < |qs|) then s
    else
      var withAnswer := s.profile.(answers := s.profile.answers + [qs[q].options[a]]);
      s.(selected := Some(a), profile := AddXp(withAnswer, AnswerPoints))
  }

  /** The delay after an answer: the selection is cleared and the step
      moves to the next one, unless that would be 16 or beyond. */
  function AnswerElapsed(s: State): (r: State)
    ensures r.selected.None? && r.profile == s.profile
    ensures s.step + 1 < OfferStep ==> r.step == s.step + 1
    ensures s.step + 1 >= OfferStep ==> r.step == s.step
  {
    var next := s.step + 1;
    s.(selected := None, step := if next < 16 then next else s.step)
  }

  /** An option button of the elite gate: the choice is marked, and only
      the passing option earns 25 points. */
  function ChooseAtGate(s: State, i: int): (r: State)
    ensures r.selected == Some(i) && r.step == s.step
    ensures r.profile.answers == s.profile.answers
    ensures r.profile.xp == s.profile.xp + (if i == PassOption then AnswerPoints else 0)
  {
    if i == 3 then s.(selected := Some(i), profile := AddXp(s.profile, AnswerPoints))
    else s.(selected := Some(i))
  }

  /** The delay after a gate choice: the passing option leads to step 10,
      any other option to the rejection screen. */
  function GateElapsed(s: State): (r: State)
    requires s.selected.Some?
    ensures r.selected.None? && r.profile == s.profile
    ensures r.step == (if s.selected.value == PassOption then 10 else RejectStep)
  {
    s.(selected := None, step := if s.selected.value == 3 then 10 else 18)
  }

  /** `analyzeProfile`: progress restarts at 0 and the interval starts. */
  function BeginAnalysis(s: State): (r: State)
    ensures r.progress == 0 && r.analysis == Scanning && r.step == s.step && r.profile == s.profile
  {
    s.(progress := 0, analysis := Scanning)
  }

  /** One firing of the analysis interval: below 100 the progress grows by
      2; at 100 the interval stops, the profile gets the label `pick` and
      the elite flag, and the delay before step 15 starts. */
  function AnalysisTick(s: State, pick: int): (r: State)
    requires 0 <= pick < |ProfileLabels|
    ensures s.progress < ProgressFull ==> r.progress == s.progress + ProgressIncrement && r.analysis == s.analysis && r.profile == s.profile
    ensures s.progress >= ProgressFull ==> r.progress == ProgressFull && r.analysis == Settling
    ensures s.progress >= ProgressFull ==> r.profile.psychProfile == ProfileLabels[pick] && r.profile.isElite
    ensures r.profile.xp == s.profile.xp && r.profile.level == s.profile.level
    ensures r.profile.answers == s.profile.answers && r.profile.classification == s.profile.classification
    ensures r.step == s.step
  {
    if s.progress >= 100 then
      s.(progress := 100, analysis := Settling,
         profile := s.profile.(psychProfile := ProfileLabels[pick], isElite := true))
    else
      s.(progress := s.progress + 2)
  }

  /** The delay after the analysis: on to the completion screen. */
  function FinishAnalysis(s: State): (r: State)
    ensures r.step == CompletionStep && r.analysis == Done && r.profile == s.profile
  {
    s.(step := 15, analysis := Done)
  }

  /** The offer's reject link: on to the rejection screen, profile kept. */
  function DeclineOffer(s: State): (r: State)
    ensures r.step == RejectStep && r.profile == s.profile
  {
    s.(step := 18)
  }

  /** The checkout button: the browser leaves the funnel. */
  function LeaveForCheckout(s: State): (r: State)
    ensures r.left && r.step == s.step && r.profile == s.profile
  {
    s.(left := true)
  }

  /** The modal's close and accept buttons both only hide it. */
  function HideModal(s: State): (r: State)
    ensures !r.modalVisible && r.modalShown == s.modalShown
    ensures r.step == s.step && r.profile == s.profile
  {
    s.(modalVisible := false)
  }

  /** The modal effect, run after every change: on step 16 the modal opens
      if it never has, and away from step 16 it is hidden. */
  function ModalEffect(s: State): (r: State)
    ensures r.modalShown <==> s.modalShown || s.step == OfferStep
    ensures r.modalVisible <==> s.step == OfferStep && (s.modalVisible || !s.modalShown)
    ensures r.(modalShown := s.modalShown, modalVisible := s.modalVisible) == s
  {
    if s.step == 16 && !s.modalShown then s.(modalVisible := true, modalShown := true)
    else if s.step != 16 then s.(modalVisible := false)
    else s
  }

  // ---------------------------------------------------------------------
  // The transition function

  /** Whether the current screen offers the event. Nothing is offered once
      the visitor has left. The modal's overlay catches pointer input but
      does not make the page behind it inert, so the page's own controls
      stay reachable from the keyboard while the modal is visible. */
  predicate Offered(qs: seq<Question>, s: State, e: Event): (b: bool)
    requires Shaped(qs)
    ensures b ==> !s.left
    ensures b && (e.CloseModal? || e.AcceptModal?) ==> s.modalVisible
    ensures b && e.Choose? ==> s.selected.None? && QuestionAt(s.step).Some?
    ensures b && e.StartAnalysis? ==> s.progress == 0 && s.analysis == Idle
  {
    !s.left &&
    match e
    case Continue => s.step in ContinueSteps
    case Choose(i) =>
      && s.selected.None? && QuestionAt(s.step).Some?
      && 0 <= i < |qs[QuestionAt(s.step).value].options|
    case SelectionElapsed => s.selected.Some? && QuestionAt(s.step).Some?
    case StartAnalysis => s.step == AnalysisStep && s.progress == 0 && s.analysis == Idle
    case Tick(pick) => s.analysis == Scanning && 0 <= pick < |ProfileLabels|
    case AnalysisElapsed => s.analysis == Settling
    case Decline => s.step == OfferStep
    case Checkout => s.step in CheckoutSteps
    case CloseModal => s.modalVisible
    case AcceptModal => s.modalVisible
  }

  /** The handler an offered event runs. */
  function Apply(qs: seq<Question>, s: State, e: Event): (r: State)
    requires Shaped(qs) && Offered(qs, s, e)
    ensures r.left <==> e.Checkout?
    ensures r.step != s.step ==>
      e.Continue? || e.SelectionElapsed? || e.AnalysisElapsed? || e.Decline?
    ensures r.profile.answers != s.profile.answers ==> e.Choose? && s.step != GateStep
    ensures r.modalShown == s.modalShown
    ensures r.modalVisible <==> s.modalVisible && !(e.CloseModal? || e.AcceptModal?)
  {
    match e
    case Continue =>
      if s.step == 0 then Begin(s)
      else if s.step == 8 then ClaimBonus(s)
      else if s.step == 13 then FinishVideo(s)
      else if s.step == 15 then Complete(s)
      else NextStep(s)
    case Choose(i) =>
      if s.step == GateStep then ChooseAtGate(s, i)
      else HandleAnswer(qs, s, QuestionAt(s.step).value, i)
    case SelectionElapsed =>
      if s.step == GateStep then GateElapsed(s) else AnswerElapsed(s)
    case StartAnalysis => BeginAnalysis(s)
    case Tick(pick) => AnalysisTick(s, pick)
    case AnalysisElapsed => FinishAnalysis(s)
    case Decline => DeclineOffer(s)
    case Checkout => LeaveForCheckout(s)
    case CloseModal => HideModal(s)
    case AcceptModal => HideModal(s)
  }

  /** One transition: `None` when the screen does not offer the event,
      otherwise the handler's result after the modal effect. */
  function Next(qs: seq<Question>, s: State, e: Event): Option<State>
    requires Shaped(qs)
  {
    if Offered(qs, s, e) then Some(ModalEffect(Apply(qs, s, e))) else None
  }

  /** The state after a sequence of events, or `None` if some event was
      not offered when it came. */
  function Run(qs: seq<Question>, s: State, es: seq<Event>): Option<State>
    requires Shaped(qs)
    decreases |es|
  {
    if es == [] then Some(s)
    else match Next(qs, s, es[0])
      case None => None
      case Some(t) => Run(qs, t, es[1..])
  }
}

=== FILE: invariant.dfy ===
/** What every reachable state of the step engine looks like.

    The score and the number of answers are fixed by the step: on the way
    to the offer every screen's exit awards a fixed number of points, so
    the score on arrival at a step is the sum of the awards of the steps
    before it (`XpBefore`), and the answers are one per answer step passed
    (`AnsweredBefore`). The rejection screen is reached either from the
    gate (analysis never started) or from the offer (analysis done), which
    the analysis phase tells apart. */
module FunnelInvariant {
  import opened Wrappers
  import opened Questions
  import opened Profile
  import opened Funnel

  /** Points the exit of step `t` awards on the path to the offer. */
  function PathAward(t: int): nat {
    if t in {0, 5, 10} then ContinuePoints
    else if t == 8 then BonusPoints
    else if t == 13 then VideoPoints
    else if QuestionAt(t).Some? then AnswerPoints
    else 0
  }

  /** The score on arrival at `step`, for steps up to the completion screen. */
  function XpBefore(step: int): nat
    decreases step
  {
    if step <= 0 then 0 else XpBefore(step - 1) + PathAward(step - 1)
  }

  /** The number of answer steps before `step`. */
  function AnsweredBefore(step: int): nat
    decreases step
  {
    if step <= 0 then 0 else AnsweredBefore(step - 1) + (if IsAnswerStep(step - 1) then 1 else 0)
  }

  /** The question that the `k`-th answer belongs to: the gate question is
      never recorded, so answers 6 and 7 belong to questions 7 and 8. */
  function AnswerQuestion(k: nat): nat {
    if k < GateQuestion then k else k + 1
  }

  /** Points already awarded for a choice whose delay is still pending. */
  function PendingXp(s: State): nat {
    match s.selected
    case None => 0
    case Some(i) => if IsAnswerStep(s.step) || i == PassOption then AnswerPoints else 0
  }

  /** The score a state must have. */
  function ExpectedXp(s: State): int {
    if s.step <= CompletionStep then XpBefore(s.step) + PendingXp(s)
    else if s.analysis == Done then FinalXp
    else XpBefore(GateStep)
  }

  /** The number of answers a state must hold. */
  function ExpectedAnswers(s: State): int {
    if s.step <= CompletionStep then
      AnsweredBefore(s.step) + (if s.selected.Some? && IsAnswerStep(s.step) then 1 else 0)
    else if s.analysis == Done then AnsweredBefore(OfferStep)
    else AnsweredBefore(GateStep)
  }

  /** The visitor went through the completion screen. */
  predicate Completed(s: State) {
    s.step >= OfferStep && s.analysis == Done
  }

  predicate AnalysisOk(s: State) {
    && (s.analysis == Idle ==> s.progress == 0 && (s.step <= AnalysisStep || s.step == RejectStep))
    && (s.analysis == Scanning ==> s.step == AnalysisStep && 0 <= s.progress <= ProgressFull && s.progress % 2 == 0)
    && (s.analysis == Settling ==> s.step == AnalysisStep && s.progress == ProgressFull)
    && (s.analysis == Done ==> s.step in {15, 16, 18} && s.progress == ProgressFull)
    && (s.step == CompletionStep || s.step == OfferStep ==> s.analysis == Done)
  }

  predicate ProfileOk(s: State) {
    && (s.profile.isElite <==> s.analysis == Settling || s.analysis == Done)
    && (s.profile.isElite ==> s.profile.psychProfile in ProfileLabels)
    && (!s.profile.isElite ==> s.profile.psychProfile == "")
    && s.profile.classification == (if Completed(s) then Some(FinalClassification) else None)
  }

  predicate AnswersOk(qs: seq<Question>, s: State)
    requires Shaped(qs)
  {
    && |s.profile.answers| == ExpectedAnswers(s)
    && (forall k :: 0 <= k < |s.profile.answers| ==>
          AnswerQuestion(k) < Count && s.profile.answers[k] in qs[AnswerQuestion(k)].options)
  }

  predicate SelectionOk(qs: seq<Question>, s: State)
    requires Shaped(qs)
  {
    s.selected.Some? ==>
      && QuestionAt(s.step).Some?
      && 0 <= s.selected.value < |qs[QuestionAt(s.step).value].options|
  }

  predicate ModalOk(s: State) {
    && (s.modalShown <==> Completed(s))
    && (s.modalVisible ==> s.step == OfferStep)
  }

  /** The invariant of every reachable state. */
  predicate Inv(qs: seq<Question>, s: State)
    requires Shaped(qs)
  {
    && 0 <= s.step <= LastStep && s.step != LegacyRejectStep
    && LevelConsistent(s.profile) && s.profile.xp == ExpectedXp(s)
    && AnswersOk(qs, s)
    && SelectionOk(qs, s)
    && AnalysisOk(s)
    && ProfileOk(s)
    && ModalOk(s)
    && (s.left ==> s.step in CheckoutSteps)
  }

  /** The step-by-step scores on the way to the offer. */
  lemma {:induction false} XpBeforeValues()
    ensures XpBefore(1) == 50 && XpBefore(5) == 150 && XpBefore(9) == 750
    ensures XpBefore(14) == 1875 && XpBefore(15) == 1875
  {
  }

  /** The answer recorded at an answer step belongs to that step's question. */
  lemma AnswerIndexMatches(step: int)
    requires IsAnswerStep(step)
    ensures AnsweredBefore(step) < AnsweredBefore(OfferStep)
    ensures AnswerQuestion(AnsweredBefore(step)) == QuestionAt(step).value
  {
    assert AnsweredBefore(OfferStep) == 8;
    if step == 1 {} else if step == 2 {} else if step == 3 {} else if step == 4 {}
    else if step == 6 {} else if step == 7 {} else if step == 11 {} else {}
  }

  /** A session starts in an invariant state. */
  lemma InitSatisfiesInv(qs: seq<Question>)
    requires Shaped(qs)
    ensures Inv(qs, Init())
  {
  }
}

=== FILE: preservation.dfy ===
/** Every offered event keeps the invariant. */
module FunnelPreservation {
  import opened Wrappers
  import opened Questions
  import opened Profile
  import opened Funnel
  import opened FunnelInvariant

  lemma BeginKeepsInv(qs: seq<Question>, s: State)
    requires Shaped(qs) && Inv(qs, s) && Offered(qs, s, Continue) && s.step == 0
    ensures Inv(qs, ModalEffect(Begin(s)))
  {
  }

  lemma NextStepKeepsInv(qs: seq<Question>, s: State)
    requires Shaped(qs) && Inv(qs, s) && Offered(qs, s, Continue) && (s.step == 5 || s.step == 10)
    ensures Inv(qs, ModalEffect(NextStep(s)))
  {
  }

  lemma ClaimBonusKeepsInv(qs: seq<Question>, s: State)
    requires Shaped(qs) && Inv(qs, s) && Offered(qs, s, Continue) && s.step == 8
    ensures Inv(qs, ModalEffect(ClaimBonus(s)))
  {
  }

  lemma FinishVideoKeepsInv(qs: seq<Question>, s: State)
    requires Shaped(qs) && Inv(qs, s) && Offered(qs, s, Continue) && s.step == 13
    ensures Inv(qs, ModalEffect(FinishVideo(s)))
  {
  }

  lemma CompleteKeepsInv(qs: seq<Question>, s: State)
    requires Shaped(qs) && Inv(qs, s) && Offered(qs, s, Continue) && s.step == CompletionStep
    ensures Inv(qs, ModalEffect(Complete(s)))
  {
    assert AnsweredBefore(OfferStep) == AnsweredBefore(CompletionStep);
  }

  lemma ContinueKeepsInv(qs: seq<Question>, s: State)
    requires Shaped(qs) && Inv(qs, s) && Offered(qs, s, Continue)
    ensures Inv(qs, ModalEffect(Apply(qs, s, Continue)))
  {
    hide Inv;
    if s.step == 0 { BeginKeepsInv(qs, s); }
    else if s.step == 8 { ClaimBonusKeepsInv(qs, s); }
    else if s.step == 13 { FinishVideoKeepsInv(qs, s); }
    else if s.step == CompletionStep { CompleteKeepsInv(qs, s); }
    else { NextStepKeepsInv(qs, s); }
  }

  lemma GateChoiceKeepsInv(qs: seq<Question>, s: State, i: int)
    requires Shaped(qs) && Inv(qs, s) && Offered(qs, s, Choose(i)) && s.step == GateStep
    ensures Inv(qs, ModalEffect(Apply(qs, s, Choose(i))))
  {
  }

  /** Appending an option of the next answer's question keeps every
      recorded answer an option of its question. */
  lemma AppendedAnswerFits(qs: seq<Question>, answers: seq<string>, text: string)
    requires Shaped(qs) && AnswerQuestion(|answers|) < Count
    requires text in qs[AnswerQuestion(|answers|)].options
    requires forall k :: 0 <= k < |answers| ==>
               AnswerQuestion(k) < Count && answers[k] in qs[AnswerQuestion(k)].options
    ensures forall k :: 0 <= k < |answers + [text]| ==>
              AnswerQuestion(k) < Count && (answers + [text])[k] in qs[AnswerQuestion(k)].options
  {
    forall k | 0 <= k < |answers + [text]|
      ensures AnswerQuestion(k) < Count && (answers + [text])[k] in qs[AnswerQuestion(k)].options
    {
      if k < |answers| {
        assert (answers + [text])[k] == answers[k];
      }
    }
  }

  lemma AnswerKeepsInv(qs: seq<Question>, s: State, i: int)
    requires Shaped(qs) && Inv(qs, s) && Offered(qs, s, Choose(i)) && s.step != GateStep
    ensures Inv(qs, ModalEffect(Apply(qs, s, Choose(i))))
  {
    var q := QuestionAt(s.step).value;
    var r := HandleAnswer(qs, s, q, i);
    assert Apply(qs, s, Choose(i)) == r;
    AnswerIndexMatches(s.step);
    AppendedAnswerFits(qs, s.profile.answers, qs[q].options[i]);
    assert AnswersOk(qs, r) && SelectionOk(qs, r);
    assert ModalEffect(r) == r;
  }

  lemma GateElapsedKeepsInv(qs: seq<Question>, s: State)
    requires Shaped(qs) && Inv(qs, s) && Offered(qs, s, SelectionElapsed) && s.step == GateStep
    ensures Inv(qs, ModalEffect(GateElapsed(s)))
  {
    assert XpBefore(10) == XpBefore(GateStep) + AnswerPoints;
    assert AnsweredBefore(10) == AnsweredBefore(GateStep);
  }

  lemma AnswerElapsedKeepsInv(qs: seq<Question>, s: State)
    requires Shaped(qs) && Inv(qs, s) && Offered(qs, s, SelectionElapsed) && s.step != GateStep
    ensures Inv(qs, ModalEffect(AnswerElapsed(s)))
  {
    assert XpBefore(s.step + 1) == XpBefore(s.step) + AnswerPoints;
    assert AnsweredBefore(s.step + 1) == AnsweredBefore(s.step) + 1;
  }

  lemma SelectionElapsedKeepsInv(qs: seq<Question>, s: State)
    requires Shaped(qs) && Inv(qs, s) && Offered(qs, s, SelectionElapsed)
    ensures Inv(qs, ModalEffect(Apply(qs, s, SelectionElapsed)))
  {
    if s.step == GateStep { GateElapsedKeepsInv(qs, s); } else { AnswerElapsedKeepsInv(qs, s); }
  }

  lemma BeginAnalysisKeepsInv(qs: seq<Question>, s: State)
    requires Shaped(qs) && Inv(qs, s) && Offered(qs, s, StartAnalysis)
    ensures Inv(qs, ModalEffect(BeginAnalysis(s)))
  {
  }

  lemma TickKeepsInv(qs: seq<Question>, s: State, pick: int)
    requires Shaped(qs) && Inv(qs, s) && Offered(qs, s, Tick(pick))
    ensures Inv(qs, ModalEffect(AnalysisTick(s, pick)))
  {
  }

  lemma FinishAnalysisKeepsInv(qs: seq<Question>, s: State)
    requires Shaped(qs) && Inv(qs, s) && Offered(qs, s, AnalysisElapsed)
    ensures Inv(qs, ModalEffect(FinishAnalysis(s)))
  {
    assert XpBefore(CompletionStep) == XpBefore(AnalysisStep);
    assert AnsweredBefore(CompletionStep) == AnsweredBefore(AnalysisStep);
  }

  lemma DeclineKeepsInv(qs: seq<Question>, s: State)
    requires Shaped(qs) && Inv(qs, s) && Offered(qs, s, Decline)
    ensures Inv(qs, ModalEffect(DeclineOffer(s)))
  {
  }

  lemma CheckoutKeepsInv(qs: seq<Question>, s: State)
    requires Shaped(qs) && Inv(qs, s) && Offered(qs, s, Checkout)
    ensures Inv(qs, ModalEffect(LeaveForCheckout(s)))
  {
  }

  lemma HideModalKeepsInv(qs: seq<Question>, s: State)
    requires Shaped(qs) && Inv(qs, s) && s.modalVisible
    ensures Inv(qs, ModalEffect(HideModal(s)))
  {
  }

  lemma ChooseKeepsInv(qs: seq<Question>, s: State, i: int)
    requires Shaped(qs) && Inv(qs, s) && Offered(qs, s, Choose(i))
    ensures Inv(qs, ModalEffect(Apply(qs, s, Choose(i))))
  {
    if s.step == GateStep { GateChoiceKeepsInv(qs, s, i); } else { AnswerKeepsInv(qs, s, i); }
  }

  lemma AnalysisKeepsInv(qs: seq<Question>, s: State, e: Event)
    requires Shaped(qs) && Inv(qs, s) && Offered(qs, s, e)
    requires e.StartAnalysis? || e.Tick? || e.AnalysisElapsed?
    ensures Inv(qs, ModalEffect(Apply(qs, s, e)))
  {
    match e
    case StartAnalysis => BeginAnalysisKeepsInv(qs, s);
    case Tick(pick) => TickKeepsInv(qs, s, pick);
    case AnalysisElapsed => FinishAnalysisKeepsInv(qs, s);
  }

  lemma OfferAndModalKeepInv(qs: seq<Question>, s: State, e: Event)
    requires Shaped(qs) && Inv(qs, s) && Offered(qs, s, e)
    requires e.Decline? || e.Checkout? || e.CloseModal? || e.AcceptModal?
    ensures Inv(qs, ModalEffect(Apply(qs, s, e)))
  {
    match e
    case Decline => DeclineKeepsInv(qs, s);
    case Checkout => CheckoutKeepsInv(qs, s);
    case CloseModal => HideModalKeepsInv(qs, s);
    case AcceptModal => HideModalKeepsInv(qs, s);
  }

  /** The invariant is inductive: every offered event keeps it. */
  lemma NextKeepsInv(qs: seq<Question>, s: State, e: Event)
    requires Shaped(qs) && Inv(qs, s) && Next(qs, s, e).Some?
    ensures Inv(qs, Next(qs, s, e).value)
  {
    assert Offered(qs, s, e);
    if e.Continue? {
      ContinueKeepsInv(qs, s);
    } else if e.Choose? {
      ChooseKeepsInv(qs, s, e.option);
    } else if e.SelectionElapsed? {
      SelectionElapsedKeepsInv(qs, s);
    } else if e.StartAnalysis? || e.Tick? || e.AnalysisElapsed? {
      AnalysisKeepsInv(qs, s, e);
    } else {
      OfferAndModalKeepInv(qs, s, e);
    }
  }
}

=== FILE: profile.dfy ===
/** The visitor's score record (types.ts `UserProfile`) and the two
    operations that change its score: awarding points and the forced
    completion award (components/FunnelController.tsx). */
module Profile {
  import opened Wrappers

  /** `classification` is optional in the source; `None` is "unset". */
  datatype UserProfile = UserProfile(
    xp: int,
    level: int,
    answers: seq<string>,
    psychProfile: string,
    isElite: bool,
    classification: Option<string>)

  const PointsPerLevel: nat := 100
  const MaxLevel: nat := 20

  /** The score and label the completion screen forces. */
  const FinalXp: nat := 1950
  const FinalClassification: string := "MANIPULADOR NATO"

  /** The four labels the analysis draws from. */
  const ProfileLabels: seq<string> :=
    ["PREDADOR DIGITAL", "MANIPULADOR NATO", "DOMINADOR BLACK", "VENDEDOR SOMBRIO"]

  /** The level a score earns: one level per 100 points starting at 1,
      capped at 20. Dafny's `/` on a positive divisor rounds down, which
      is what `Math.floor(xp / 100)` does for every score, negative or not. */
  function LevelOf(xp: int): (level: int)
    ensures level <= MaxLevel
    ensures level == MaxLevel <==> xp >= (MaxLevel - 1) * PointsPerLevel
    ensures level < MaxLevel ==> (level - 1) * PointsPerLevel <= xp < level * PointsPerLevel
  {
    var uncapped := xp / PointsPerLevel + 1;
    if uncapped > MaxLevel then MaxLevel else uncapped
  }

  /** The level invariant: the score is not negative and the level is the
      one the score earns. */
  predicate LevelConsistent(p: UserProfile) {
    p.xp >= 0 && p.level == LevelOf(p.xp)
  }

  /** The record a session starts with. */
  function Initial(): (p: UserProfile)
    ensures LevelConsistent(p) && p.xp == 0 && p.level == 1
    ensures p.answers == [] && p.psychProfile == "" && !p.isElite && p.classification.None?
  {
    UserProfile(0, 1, [], "", false, None)
  }

  /** `addXP`: the score grows by exactly `points`, the level follows the
      new score, and nothing else in the record changes. */
  function AddXp(p: UserProfile, points: nat): (r: UserProfile)
    ensures r.xp - p.xp == points
    ensures r.level == LevelOf(r.xp)
    ensures p.xp >= 0 ==> LevelConsistent(r)
    ensures LevelConsistent(p) ==> p.level <= r.level
    ensures r.answers == p.answers && r.psychProfile == p.psychProfile
    ensures r.isElite == p.isElite && r.classification == p.classification
  {
    var newXp := p.xp + points;
    p.(xp := newXp, level := LevelOf(newXp))
  }

  /** `updateFinalXP`: the score and level are forced to the completion
      values, which agree with the level rule, and the classification is
      set; answers, profile label and elite flag are kept. */
  function CompleteProfile(p: UserProfile): (r: UserProfile)
    ensures LevelConsistent(r) && r.xp == FinalXp && r.level == MaxLevel
    ensures r.classification == Some(FinalClassification)
    ensures r.answers == p.answers && r.psychProfile == p.psychProfile && r.isElite == p.isElite
  {
    p.(xp := 1950, level := 20, classification := Some("MANIPULADOR NATO"))
  }

  /** The sum of a list of awards. */
  function Total(awards: seq<nat>): nat
    decreases |awards|
  {
    if awards == [] then 0 else awards[0] + Total(awards[1..])
  }

  /** The record after awarding each of `awards` in turn. */
  function AddAll(p: UserProfile, awards: seq<nat>): UserProfile
    decreases |awards|
  {
    if awards == [] then p else AddAll(AddXp(p, awards[0]), awards[1..])
  }

  /** Any run of awards from a consistent record keeps the level
      invariant, never lowers the level, and grows the score by exactly
      the sum of the awards. */
  lemma {:induction false} AwardsKeepLevelInvariant(p: UserProfile, awards: seq<nat>)
    requires LevelConsistent(p)
    ensures LevelConsistent(AddAll(p, awards))
    ensures AddAll(p, awards).xp == p.xp + Total(awards)
    ensures AddAll(p, awards).level >= p.level
    ensures AddAll(p, awards).answers == p.answers
    decreases |awards|
  {
    if awards != [] {
      AwardsKeepLevelInvariant(AddXp(p, awards[0]), awards[1..]);
    }
  }
}

=== FILE: properties.dfy ===
/** Properties of the step engine: what each screen's transition does,
    and what holds along every run from the start of a session. */
module FunnelProperties {
  import opened Wrappers
  import opened Questions
  import opened Profile
  import opened Funnel
  import opened FunnelInvariant
  import opened FunnelPreservation

  // ---------------------------------------------------------------------
  // Single transitions

  /** Answering question q with option a records exactly that option's
      text and 25 points, and blocks further choices; when the delay
      elapses the selection clears and the step moves to the next one,
      which is always below the offer. */
  lemma AnswerThenAdvance(qs: seq<Question>, s: State, a: int)
    requires Shaped(qs) && Offered(qs, s, Choose(a)) && IsAnswerStep(s.step)
    requires LevelConsistent(s.profile)
    ensures Next(qs, s, Choose(a)).Some?
    ensures var r := Next(qs, s, Choose(a)).value;
      && r.profile.answers == s.profile.answers + [qs[QuestionAt(s.step).value].options[a]]
      && r.profile.xp == s.profile.xp + AnswerPoints && LevelConsistent(r.profile)
      && r.selected == Some(a) && r.step == s.step
      && (forall j :: Next(qs, r, Choose(j)).None?)
      && Next(qs, r, SelectionElapsed).Some?
      && var r2 := Next(qs, r, SelectionElapsed).value;
         r2.step == s.step + 1 < OfferStep && r2.selected.None? && r2.profile == r.profile
  {
    var r := Next(qs, s, Choose(a)).value;
    assert r == ModalEffect(HandleAnswer(qs, s, QuestionAt(s.step).value, a));
    assert Next(qs, r, SelectionElapsed).value == AnswerElapsed(r);
  }

  /** The elite gate: choosing the passing option earns 25 points and
      leads to step 10; any other option leads to the rejection screen
      with the score unchanged. Neither records an answer, and once a
      choice is pending no other option can be chosen. */
  lemma GateDecision(qs: seq<Question>, s: State, i: int)
    requires Shaped(qs) && Offered(qs, s, Choose(i)) && s.step == GateStep
    requires LevelConsistent(s.profile)
    ensures Next(qs, s, Choose(i)).Some?
    ensures var r := Next(qs, s, Choose(i)).value;
      && r.selected == Some(i) && r.profile.answers == s.profile.answers
      && LevelConsistent(r.profile)
      && (forall j :: Next(qs, r, Choose(j)).None?)
      && Next(qs, r, SelectionElapsed).Some?
      && var r2 := Next(qs, r, SelectionElapsed).value;
         && r2.selected.None? && r2.profile.answers == s.profile.answers
         && (i == PassOption ==> r2.step == 10 && r2.profile.xp == s.profile.xp + AnswerPoints)
         && (i != PassOption ==> r2.step == RejectStep && r2.profile.xp == s.profile.xp)
  {
    var r := Next(qs, s, Choose(i)).value;
    assert r == ModalEffect(ChooseAtGate(s, i));
    assert Next(qs, r, SelectionElapsed).value == ModalEffect(GateElapsed(r));
  }

  /** The continue buttons: steps 0, 5 and 10 give 50 points and move one
      step on, step 8 gives 500 and opens the gate, step 13 gives 1000 and
      opens the analysis, and step 15 forces the completion award and opens
      the offer, where the bonus modal appears on first arrival. Answers
      never change; the level invariant is kept. */
  lemma ContinueTransitions(qs: seq<Question>, s: State)
    requires Shaped(qs) && Offered(qs, s, Continue) && LevelConsistent(s.profile)
    ensures Next(qs, s, Continue).Some?
    ensures var r := Next(qs, s, Continue).value;
      && LevelConsistent(r.profile) && r.profile.answers == s.profile.answers
      && (s.step in {0, 5, 10} ==> r.step == s.step + 1 && r.profile.xp == s.profile.xp + ContinuePoints)
      && (s.step == 8 ==> r.step == GateStep && r.profile.xp == s.profile.xp + BonusPoints)
      && (s.step == 13 ==> r.step == AnalysisStep && r.profile.xp == s.profile.xp + VideoPoints)
      && (s.step == CompletionStep ==>
            && r.step == OfferStep && r.profile.xp == FinalXp && r.profile.level == MaxLevel
            && r.profile.classification == Some(FinalClassification)
            && r.profile.psychProfile == s.profile.psychProfile
            && r.profile.isElite == s.profile.isElite
            && (!s.modalShown ==> r.modalVisible && r.modalShown))
  {
  }

  /** Declining the offer leads to the rejection screen and changes
      nothing in the profile. */
  lemma DeclineTransition(qs: seq<Question>, s: State)
    requires Shaped(qs) && Offered(qs, s, Decline)
    ensures Next(qs, s, Decline).Some?
    ensures Next(qs, s, Decline).value.step == RejectStep
    ensures Next(qs, s, Decline).value.profile == s.profile
    ensures !Next(qs, s, Decline).value.modalVisible
  {
  }

  /** Whenever the analysis bookkeeping is consistent (as in every
      reachable state), the progress never goes down and never exceeds 100;
      the start button is offered only at progress 0. */
  lemma ProgressMonotone(qs: seq<Question>, s: State, e: Event)
    requires Shaped(qs) && AnalysisOk(s) && Next(qs, s, e).Some?
    ensures s.progress <= Next(qs, s, e).value.progress <= ProgressFull
    ensures e == StartAnalysis ==> s.progress == 0
  {
    var r := Apply(qs, s, e);
    assert Next(qs, s, e).value.progress == r.progress;
    if e.StartAnalysis? {
      assert r == BeginAnalysis(s);
    } else if e.Tick? {
      assert r == AnalysisTick(s, e.pick);
    } else {
      assert r.progress == s.progress;
    }
  }

  /** `count` interval firings in a row, all drawing label `pick`. */
  function Ticks(count: nat, pick: int): (es: seq<Event>)
    ensures |es| == count
    ensures forall k :: 0 <= k < |es| ==> es[k] == Tick(pick)
    decreases count
  {
    if count == 0 then [] else [Tick(pick)] + Ticks(count - 1, pick)
  }

  /** From progress p, (100 - p) / 2 firings bring the progress to exactly
      100 with the analysis still running and the profile untouched; the
      next firing assigns the label and the elite flag, once, and stops
      the interval. */
  lemma {:induction false} IntervalReachesFull(qs: seq<Question>, s: State, pick: int)
    requires Shaped(qs) && Inv(qs, s) && s.analysis == Scanning && !s.left
    requires 0 <= pick < |ProfileLabels|
    ensures Run(qs, s, Ticks((ProgressFull - s.progress) / 2, pick)).Some?
    ensures var t := Run(qs, s, Ticks((ProgressFull - s.progress) / 2, pick)).value;
      && t.progress == ProgressFull && t.analysis == Scanning && t.profile == s.profile
      && Next(qs, t, Tick(pick)).Some?
      && var u := Next(qs, t, Tick(pick)).value;
         && u.analysis == Settling && u.progress == ProgressFull
         && u.profile.psychProfile == ProfileLabels[pick] && u.profile.isElite
         && u.profile.xp == s.profile.xp && u.profile.answers == s.profile.answers
    decreases ProgressFull - s.progress
  {
    var n := (ProgressFull - s.progress) / 2;
    if n == 0 {
      assert s.progress == ProgressFull;
      assert Run(qs, s, Ticks(0, pick)) == Some(s);
    } else {
      var s1 := Next(qs, s, Tick(pick)).value;
      assert s1 == s.(progress := s.progress + 2);
      NextKeepsInv(qs, s, Tick(pick));
      var es := Ticks(n, pick);
      assert es[1..] == Ticks(n - 1, pick);
      assert (ProgressFull - s1.progress) / 2 == n - 1;
      IntervalReachesFull(qs, s1, pick);
    }
  }

  /** The delay after the analysis moves to the completion screen. */
  lemma AnalysisLeadsToCompletion(qs: seq<Question>, s: State)
    requires Shaped(qs) && Inv(qs, s) && s.analysis == Settling && !s.left
    ensures Next(qs, s, AnalysisElapsed).Some?
    ensures var r := Next(qs, s, AnalysisElapsed).value;
      r.step == CompletionStep && r.profile == s.profile && r.profile.isElite
      && r.profile.psychProfile in ProfileLabels
  {
  }

  /** The modal effect is idempotent and shows the modal only on the
      offer. (Why applying it after every transition matches React's
      dependency-driven runs is `EffectOnlyOnDependencyChange`.) */
  lemma ModalEffectIdempotent(s: State)
    ensures ModalEffect(ModalEffect(s)) == ModalEffect(s)
    ensures ModalEffect(s).modalVisible ==> ModalEffect(s).step == OfferStep
  {
  }

  /** One transition and the bonus modal: the shown flag, once set, stays
      set; the modal is only visible on the offer; and it can only become
      visible when it has never been shown. */
  lemma ModalOneShot(qs: seq<Question>, s: State, e: Event)
    requires Shaped(qs) && Next(qs, s, e).Some?
    ensures var r := Next(qs, s, e).value;
      && (s.modalShown ==> r.modalShown)
      && (r.modalVisible ==> r.step == OfferStep && r.modalShown)
      && (r.modalVisible && !s.modalVisible ==> !s.modalShown)
  {
  }

  /** While the bonus modal is visible, its close and accept buttons are
      there to press, and so are the offer page's own checkout and decline
      controls behind it, which the overlay does not shield from the
      keyboard; nothing else is offered. Declining from under the modal
      leads to the rejection screen, where the effect hides the modal. */
  lemma ModalOverOffer(qs: seq<Question>, s: State, e: Event)
    requires Shaped(qs) && Inv(qs, s) && s.modalVisible && !s.left
    ensures Offered(qs, s, CloseModal) && Offered(qs, s, AcceptModal)
    ensures Offered(qs, s, Decline) && Offered(qs, s, Checkout)
    ensures Offered(qs, s, e) ==> e.CloseModal? || e.AcceptModal? || e.Decline? || e.Checkout?
    ensures Next(qs, s, Decline).Some? && Next(qs, s, Decline).value.step == RejectStep
    ensures !Next(qs, s, Decline).value.modalVisible
  {
  }

  /** Every state the invariant admits is one the modal effect leaves
      alone, and a handler that keeps the step returns such a state again
      (no handler touches the shown flag). So applying the effect after
      every transition gives the same states as running it only when one
      of its two dependencies, the step and the shown flag, changes. */
  lemma EffectOnlyOnDependencyChange(qs: seq<Question>, s: State, e: Event)
    requires Shaped(qs) && Inv(qs, s) && Offered(qs, s, e)
    ensures ModalEffect(s) == s
    ensures Apply(qs, s, e).step == s.step ==> ModalEffect(Apply(qs, s, e)) == Apply(qs, s, e)
  {
  }

  /** One transition never takes anything from the profile: the score and
      the level do not drop, the elite flag and the profile label, once
      set, stay as they are, and so does the classification. The label is
      assigned only by the analysis tick that finds the bar full, to the
      label that tick drew. */
  lemma ProfileOnlyGrows(qs: seq<Question>, s: State, e: Event)
    requires Shaped(qs) && Inv(qs, s) && Next(qs, s, e).Some?
    ensures var r := Next(qs, s, e).value;
      && s.profile.xp <= r.profile.xp && s.profile.level <= r.profile.level
      && (s.profile.isElite ==> r.profile.isElite && r.profile.psychProfile == s.profile.psychProfile)
      && (!s.profile.isElite && r.profile.isElite ==>
            e.Tick? && r.profile.psychProfile == ProfileLabels[e.pick])
      && (s.profile.classification.Some? ==> r.profile.classification == s.profile.classification)
  {
    ProfileFacts(qs, s);
    hide Inv;
    StepGrowsProfile(qs, s, e);
  }

  /** What the invariant says about the profile that one transition needs:
      the level rule, a score within the completion award before the
      offer, no analysis running once elite, and only the final
      classification. */
  lemma ProfileFacts(qs: seq<Question>, s: State)
    requires Shaped(qs) && Inv(qs, s)
    ensures LevelConsistent(s.profile)
    ensures s.step == CompletionStep ==> s.profile.xp <= FinalXp
    ensures s.profile.isElite ==> s.analysis != Scanning
    ensures s.profile.classification.Some? ==> s.profile.classification == Some(FinalClassification)
  {
    XpBeforeValues();
  }

  /** One transition from a profile with those facts only adds to it. */
  lemma StepGrowsProfile(qs: seq<Question>, s: State, e: Event)
    requires Shaped(qs) && Next(qs, s, e).Some? && LevelConsistent(s.profile)
    requires s.step == CompletionStep ==> s.profile.xp <= FinalXp
    requires s.profile.isElite ==> s.analysis != Scanning
    requires s.profile.classification.Some? ==> s.profile.classification == Some(FinalClassification)
    ensures var r := Next(qs, s, e).value;
      && s.profile.xp <= r.profile.xp && s.profile.level <= r.profile.level
      && (s.profile.isElite ==> r.profile.isElite && r.profile.psychProfile == s.profile.psychProfile)
      && (!s.profile.isElite && r.profile.isElite ==>
            e.Tick? && r.profile.psychProfile == ProfileLabels[e.pick])
      && (s.profile.classification.Some? ==> r.profile.classification == s.profile.classification)
  {
  }

  /** The step never goes back, and the rejection screen is never left
      for another screen. */
  lemma StepNeverBack(qs: seq<Question>, s: State, e: Event)
    requires Shaped(qs) && Inv(qs, s) && Next(qs, s, e).Some?
    ensures s.step <= Next(qs, s, e).value.step
    ensures s.step == RejectStep ==> Next(qs, s, e).value.step == RejectStep
  {
  }

  // ---------------------------------------------------------------------
  // Runs

  /** Along any run the step never goes back: the completion screen is
      entered at most once, and after the rejection screen (from a failed
      gate or a declined offer) no other screen is shown again. */
  lemma {:induction false} StepsNeverBack(qs: seq<Question>, s: State, es: seq<Event>)
    requires Shaped(qs) && Inv(qs, s)
    ensures Run(qs, s, es).Some? ==> s.step <= Run(qs, s, es).value.step
    ensures Run(qs, s, es).Some? && s.step == RejectStep ==> Run(qs, s, es).value.step == RejectStep
    decreases |es|
  {
    if es != [] {
      match Next(qs, s, es[0])
      case None =>
      case Some(t) =>
        StepNeverBack(qs, s, es[0]);
        NextKeepsInv(qs, s, es[0]);
        StepsNeverBack(qs, t, es[1..]);
    }
  }

  /** Along any run the profile only grows: the score and the level never
      drop, and the elite flag, the profile label and the classification
      never change once set. */
  lemma {:induction false} ProfileNeverRegresses(qs: seq<Question>, s: State, es: seq<Event>)
    requires Shaped(qs) && Inv(qs, s)
    ensures Run(qs, s, es).Some? ==>
      var t := Run(qs, s, es).value;
      && s.profile.xp <= t.profile.xp && s.profile.level <= t.profile.level
      && (s.profile.isElite ==> t.profile.isElite && t.profile.psychProfile == s.profile.psychProfile)
      && (s.profile.classification.Some? ==> t.profile.classification == s.profile.classification)
    decreases |es|
  {
    if es != [] {
      match Next(qs, s, es[0])
      case None =>
      case Some(t) =>
        ProfileOnlyGrows(qs, s, es[0]);
        NextKeepsInv(qs, s, es[0]);
        ProfileNeverRegresses(qs, t, es[1..]);
    }
  }

  /** How many transitions of a run open the bonus modal. */
  function Opens(qs: seq<Question>, s: State, es: seq<Event>): nat
    requires Shaped(qs)
    decreases |es|
  {
    if es == [] then 0
    else match Next(qs, s, es[0])
      case None => 0
      case Some(t) => (if t.modalVisible && !s.modalVisible then 1 else 0) + Opens(qs, t, es[1..])
  }

  /** Along any run the modal opens at most once, and never again once it
      has been shown. */
  lemma {:induction false} ModalOpensAtMostOnce(qs: seq<Question>, s: State, es: seq<Event>)
    requires Shaped(qs)
    ensures Opens(qs, s, es) <= (if s.modalShown then 0 else 1)
    ensures Run(qs, s, es).Some? && s.modalShown ==> Run(qs, s, es).value.modalShown
    decreases |es|
  {
    if es != [] {
      match Next(qs, s, es[0])
      case None =>
      case Some(t) =>
        ModalOneShot(qs, s, es[0]);
        ModalOpensAtMostOnce(qs, t, es[1..]);
    }
  }

  /** Along any run the answers only grow at the end, at most one per
      transition. */
  lemma {:induction false} AnswersAppendOnly(qs: seq<Question>, s: State, es: seq<Event>)
    requires Shaped(qs)
    ensures Run(qs, s, es).Some? ==>
      var t := Run(qs, s, es).value;
      s.profile.answers <= t.profile.answers && |t.profile.answers| <= |s.profile.answers| + |es|
    decreases |es|
  {
    if es != [] {
      match Next(qs, s, es[0])
      case None =>
      case Some(t) =>
        assert s.profile.answers <= t.profile.answers && |t.profile.answers| <= |s.profile.answers| + 1;
        AnswersAppendOnly(qs, t, es[1..]);
    }
  }

  /** The invariant holds after any run from an invariant state. */
  lemma {:induction false} RunKeepsInv(qs: seq<Question>, s: State, es: seq<Event>)
    requires Shaped(qs) && Inv(qs, s)
    ensures Run(qs, s, es).Some? ==> Inv(qs, Run(qs, s, es).value)
    decreases |es|
  {
    if es != [] {
      match Next(qs, s, es[0])
      case None =>
      case Some(t) =>
        NextKeepsInv(qs, s, es[0]);
        RunKeepsInv(qs, t, es[1..]);
    }
  }

  /** An event the current screen offers: the modal's close button, a
      pending delay, the screen's continue button, its first option, the
      analysis controls, the offer's reject link, or checkout. */
  function Prompt(s: State): Event {
    if s.modalVisible then CloseModal
    else if s.selected.Some? then SelectionElapsed
    else if s.step in ContinueSteps then Continue
    else if QuestionAt(s.step).Some? then Choose(0)
    else if s.analysis == Idle && s.step == AnalysisStep then StartAnalysis
    else if s.analysis == Scanning then Tick(0)
    else if s.analysis == Settling then AnalysisElapsed
    else if s.step == OfferStep then Decline
    else Checkout
  }

  /** The funnel never gets stuck: until the visitor leaves for checkout,
      every reachable state offers some event. */
  lemma NeverStuck(qs: seq<Question>, s: State)
    requires Shaped(qs) && Inv(qs, s) && !s.left
    ensures Offered(qs, s, Prompt(s))
    ensures Next(qs, s, Prompt(s)).Some?
  {
  }

  /** Facts the invariant gives about a single state. */
  lemma InvFacts(qs: seq<Question>, s: State)
    requires Shaped(qs) && Inv(qs, s)
    ensures 0 <= s.step <= LastStep && s.step != LegacyRejectStep
    ensures s.profile.level == LevelOf(s.profile.xp) && s.profile.xp >= 0
    ensures s.step == OfferStep ==>
      s.profile.xp == FinalXp && s.profile.level == MaxLevel
      && s.profile.classification == Some(FinalClassification) && s.profile.isElite
    ensures s.step == RejectStep && !s.profile.isElite ==>
      s.profile.xp == 750 && |s.profile.answers| == 6
    ensures |s.profile.answers| <= 8
    ensures s.modalVisible ==> s.step == OfferStep
  {
    XpBeforeValues();
    assert AnsweredBefore(OfferStep) == 8 && AnsweredBefore(GateStep) == 6;
    assert s.step <= CompletionStep ==> AnsweredBefore(s.step) <= 8;
  }

  /** What every state reachable from the start of a session satisfies:
      the step is never the legacy screen 17; the level follows the score;
      the offer is only reached with the forced completion score and label;
      a gate rejection keeps 750 points and six answers; at most eight
      answers are ever recorded; and the modal is only visible on the offer. */
  lemma ReachableStateFacts(qs: seq<Question>, es: seq<Event>)
    requires Shaped(qs)
    ensures Run(qs, Init(), es).Some? ==>
      var s := Run(qs, Init(), es).value;
      && 0 <= s.step <= LastStep && s.step != LegacyRejectStep
      && s.profile.level == LevelOf(s.profile.xp) && s.profile.xp >= 0
      && (s.step == OfferStep ==>
            s.profile.xp == FinalXp && s.profile.level == MaxLevel
            && s.profile.classification == Some(FinalClassification) && s.profile.isElite)
      && (s.step == RejectStep && !s.profile.isElite ==>
            s.profile.xp == 750 && |s.profile.answers| == 6)
      && |s.profile.answers| <= 8
      && (s.modalVisible ==> s.step == OfferStep)
  {
    InitSatisfiesInv(qs);
    RunKeepsInv(qs, Init(), es);
    if Run(qs, Init(), es).Some? {
      InvFacts(qs, Run(qs, Init(), es).value);
    }
  }
}

=== FILE: questions.dfy ===
/** The fixed table of nine quiz questions the step engine indexes into
    (constants.ts). Each question carries its prompt, its option texts and a
    parallel list of one-line responses.

    String literals are costly for the verifier, so every entry is its own
    function with its own contract, and `TableShaped` combines those
    contracts with the entries' bodies hidden. The step engine is stated for
    any table with this shape (`Shaped`), never for the literals directly. */
module Questions {

  datatype Question = Question(id: int, text: string, options: seq<string>, responses: seq<string>)

  /** Number of entries in the table. */
  const Count: nat := 9

  /** Index of the elite-gate question and of its single passing option. */
  const GateQuestion: nat := 6
  const PassOption: nat := 3
  const PassText: string := "SOU PEGADOR"

  /** Index of the yes/no question rendered in two columns. */
  const YesNoQuestion: nat := 1

  /** Letters printed in front of each option in the list layout. */
  const Letters: seq<string> := ["A", "B", "C", "D", "E"]

  /** A question is well formed when it has between two and five options
      (one letter each) and one response per option. */
  predicate WellFormed(q: Question) {
    2 <= |q.options| <= |Letters| && |q.responses| == |q.options|
  }

  /** The shape of the question table that the step engine relies on:
      nine well-formed entries numbered 1 to 9, a two-option yes/no
      question, and a four-option gate question whose option 3 is the
      passing answer. */
  predicate Shaped(qs: seq<Question>) {
    && |qs| == Count
    && (forall i :: 0 <= i < |qs| ==> qs[i].id == i + 1 && WellFormed(qs[i]))
    && |qs[YesNoQuestion].options| == 2
    && |qs[GateQuestion].options| == 4
    && qs[GateQuestion].options[PassOption] == PassText
  }

  function Question1(): (q: Question)
    ensures q.id == 1 && WellFormed(q)
  {
    Question(1, "Qual a sua idade?",
      ["18 a 29 anos", "30 a 39 anos", "40 a 49 anos", "50+ anos"],
      ["Mentiroso.", "Ainda há esperança.", "Você sabe o que é dor.", "Perfeito. Você está pronto."])
  }

  function Question2(): (q: Question)
    ensures q.id == 2 && WellFormed(q)
    ensures |q.options| == 2
  {
    Question(2, "Você está solteiro?",
      ["✅ Sim", "❌ Não"],
      ["Foco total.", "Entendido."])
  }

  function Question3(): (q: Question)
    ensures q.id == 3 && WellFormed(q)
  {
    Question(3, "Você tem alguém em mente que queira conquistar?",
      ["Sim, tem alguém que eu gosto ", "Quero reconquistar uma ex", "Apenas quero sair com mais mulheres", "Não sei ainda"],
      ["Santo demais.", "Quase lá.", "Você tem potencial.", "Bem-vindo ao lado negro."])
  }

  function Question4(): (q: Question)
    ensures q.id == 4 && WellFormed(q)
  {
    Question(4, "Você gosta de dominar ou ser dominado?",
      ["Nenhum dos dois", "Ser dominado", "Dominar", "Dominar completamente"],
      ["Ingênuo.", "Fraco.", "Interessante.", "Você entendeu o jogo."])
  }

  function Question5(): (q: Question)
    ensures q.id == 5 && WellFormed(q)
  {
    Question(5, "Se a mulher que você gosta postasse essa foto no Instagram, como você responderia?",
      ["Mandaria um \"Oi\"", "Faria um elogio", "Chamaria ela pra sair", "Reagiria com um emoji 🔥", "Não saberia o que dizer (passaria o storie)"],
      ["Básico demais.", "Previsível.", "Ousado.", "Preguiçoso.", "Invisível."])
  }

  function Question6(): (q: Question)
    ensures q.id == 6 && WellFormed(q)
  {
    Question(6, "Onde você costuma conversar com ela(s)?",
      ["Instagram", "WhatsApp", "Tinder", "Outros"],
      ["Teimoso.", "Cauteloso.", "Inteligente.", "Devoto absoluto."])
  }

  function Question7(): (q: Question)
    ensures q.id == 7 && WellFormed(q)
    ensures |q.options| == 4 && q.options[PassOption] == PassText
  {
    Question(7, "Você merece esse acesso ou ainda é um pegador Fraco?",
      ["Sou Fraco", "Não sei", "Mereço", "SOU PEGADOR"],
      ["Pelo menos é honesto.", "Indeciso.", "Confiante.", "APROVADO."])
  }

  function Question8(): (q: Question)
    ensures q.id == 8 && WellFormed(q)
  {
    Question(8, "Você quer ter acesso vitalício ou só ficar vendo vídeo de mulher no tiktok e não pegar nenhuma?",
      ["Prefiro não pegar mulher", "Não sei", "Acesso vitalício", "DOMINAÇÃO TOTAL"],
      ["Perdido.", "Confuso.", "Focado.", "MENTALIDADE BLACK."])
  }

  function Question9(): (q: Question)
    ensures q.id == 9 && WellFormed(q)
  {
    Question(9, "Quer marcar encontros reais essa semana?",
      ["Nunca", "Talvez", "Sim", "EU QUERO"],
      ["Moralista.", "Hesitante.", "Pragmático.", "VERDADEIRO BLACK."])
  }

  /** The table itself, in id order. */
  function Table(): seq<Question> {
    [Question1(), Question2(), Question3(), Question4(), Question5(),
     Question6(), Question7(), Question8(), Question9()]
  }

  /** The literal table has the shape the engine relies on. */
  lemma TableShaped()
    ensures Shaped(Table())
  {
    hide Question1, Question2, Question3, Question4, Question5,
         Question6, Question7, Question8, Question9;
    var t := Table();
    assert t[0] == Question1() && t[1] == Question2() && t[2] == Question3();
    assert t[3] == Question4() && t[4] == Question5() && t[5] == Question6();
    assert t[6] == Question7() && t[7] == Question8() && t[8] == Question9();
  }

  /** In a shaped table every option has a letter label and a response. */
  lemma LabelsCoverOptions(qs: seq<Question>, q: nat, a: nat)
    requires Shaped(qs) && q < Count && a < |qs[q].options|
    ensures a < |Letters| && a < |qs[q].responses|
  {
  }
}

=== FILE: session.dfy ===
/** The step engine with the repository's own question table, and the
    facts that tie the screens to the table's shape. */
module FunnelSession {
  import opened Wrappers
  import opened Questions
  import opened Profile
  import opened Funnel
  import opened FunnelInvariant
  import opened FunnelProperties

  /** The mission number in a question header is the id of the question
      the step shows, so the default of 1 is never displayed. */
  lemma QuestionNumberIsId(qs: seq<Question>, step: int)
    requires Shaped(qs) && QuestionAt(step).Some?
    ensures QuestionNumber(step) == qs[QuestionAt(step).value].id
  {
  }

  /** The screens fit the table: step 2's two-column yes/no layout shows
      the two-option question, and the gate at step 9 shows four options
      of which option 3 is the passing answer. */
  lemma ScreensFitTable(qs: seq<Question>)
    requires Shaped(qs)
    ensures QuestionAt(2) == Some(YesNoQuestion) && |qs[YesNoQuestion].options| == 2
    ensures QuestionAt(GateStep) == Some(GateQuestion) && |qs[GateQuestion].options| == 4
    ensures qs[GateQuestion].options[PassOption] == PassText
  {
  }

  /** With the repository's table, every state reachable from the start
      of a session satisfies the invariant. */
  lemma SessionInvariant(qs: seq<Question>, es: seq<Event>)
    requires qs == Table()
    ensures Shaped(qs)
    ensures Run(qs, Init(), es).Some? ==> Inv(qs, Run(qs, Init(), es).value)
  {
    hide Question1, Question2, Question3, Question4, Question5,
         Question6, Question7, Question8, Question9;
    TableShaped();
    InitSatisfiesInv(qs);
    RunKeepsInv(qs, Init(), es);
  }
}

=== FILE: wrappers.dfy ===
/** The optional value used for the source's nullable fields
    (`selectedOption: number | null`, `classification?: string`). */
module Wrappers {

  datatype Option<+T> = None | Some(value: T)
}
